=== FILE: README.md ===
# Sideload helper model

A Dafny model of the module sideload helper `x_make_py_mod_sideload_x`. The
helper loads a Python source file found under a base directory and hands
back the module, or one attribute of it, and offers a JSON front end,
`main_json`, whose requests and replies follow three JSON schemas.

What is modelled:

- **Locating the file** (`Locator`). `_resolve_module_file` works over an
  abstract read-only filesystem: a set of existing files, a set of existing
  directories, and the current directory that relative paths are taken
  against. Paths are parsed the way pathlib does it: split on
  `/`, with empty and `.` segments dropped, and absolute exactly when the
  text starts with `/`. `/` and `joinpath` follow pathlib too, so an
  absolute right operand replaces the base. Failures carry the Python
  exception class and the text the code raises.
- **Loading and extracting** (`Sideload`). Running a file's top-level code
  is an input to the model: a function from the located path to the
  bindings the code leaves, or the exception it raises. The loaded module's
  `__file__` is the located path as text, made absolute against the
  current directory. `spec_from_file_location` does this from Python 3.10
  on, which the helper requires. `_get_attribute` and `run` are
  modelled over modules that map names to plain values or classes. Each
  class either constructs with no arguments or raises.
- **The JSON front end** (`Pipeline`). `main_json` and its helpers are
  modelled as pure functions over a small JSON datatype. An exception that
  `main_json` does not catch is a `Raised` reply. The jsonschema
  validator's error report (message, path, schema path) is an input.
- **The schemas** (`JsonContracts`). The input, output and error schemas of
  `json_contracts.py` are restated as predicates.
- **Scenarios** (`Scenarios`). The repository's tests, stated over
  concrete filesystems and requests.

A member class whose construction raises lets that exception propagate
unchanged. `main_json` turns only an AttributeError, or a subclass of it,
into the "attribute resolution failed" payload, and anything else escapes.
Exception classes form a hierarchy. A class other than the five the helper
names is given with the class it derives from, so a ModuleNotFoundError
raised by module code is caught as an ImportError.

Two checks in `main_json` can never fire, and the model proves this rather
than assuming it:

- A request that passed the input schema always has a non-empty
  `base_path` and `module`, so `_extract_inputs` never reports a missing
  field after it (`ValidRequestHasInputs`).
- Every reply that reaches the output check already satisfies the output
  schema (`SuccessOtherwise`).

The `__file__` fallback in `_load_target_module` is unreachable too: the
loader always records the located file.

## Model

| member | source | states |
|---|---|---|
| Strings.Split | x_cls_make_py_mod_sideload_x.py:92-93 | `str.split(".")` yields at least one part; no part contains the separator; there is more than one part exactly when the separator occurs |
| Strings.JoinSplit | x_cls_make_py_mod_sideload_x.py:92 | joining the parts back with the separator restores the identifier: splitting loses nothing |
| Strings.SplitJoin | x_cls_make_py_mod_sideload_x.py:92 | separator-free parts joined with the separator split back into exactly those parts |
| Strings.SplitPartsFromSource | x_cls_make_py_mod_sideload_x.py:92-95 | every character of a dotted part occurs in the identifier, so a part of a name without `/` has no `/` |
| Strings.SplitAround | x_cls_make_py_mod_sideload_x.py:92 | splitting at a separator occurrence is splitting the two sides and concatenating the parts |
| Strings.SplitWithoutSeparator | x_cls_make_py_mod_sideload_x.py:92 | an identifier without dots is a single part |
| Paths.ParsePath | x_cls_make_py_mod_sideload_x.py:79 | `Path(text)` is absolute exactly when the text starts with `/`, and its segments are all non-empty, not `.`, and free of `/` |
| Paths.Render | x_cls_make_py_mod_sideload_x.py:101 | `as_posix()` never yields empty text (an empty relative path prints as `.`) |
| Paths.ParseRender | x_cls_make_py_mod_sideload_x.py:99-101 | parsing the text `as_posix()` prints gives back the same path, so returning a path as text loses nothing |
| Paths.ParseSegment | x_cls_make_py_mod_sideload_x.py:84 | a plain name parses as a relative path of that one segment |
| Paths.Join | x_cls_make_py_mod_sideload_x.py:90 | `base / other` is `other` when `other` is absolute; otherwise it keeps the base's anchor and its result is the base's segments followed by exactly `other`'s, in order; well-formed paths stay well-formed |
| Paths.TextJoin | x_cls_make_py_mod_sideload_x.py:88-90 | joining a parsed base with a parsed relative identifier such as `sub/mod.py` is the same as parsing the two texts joined by `/`, so the candidate lies below the base with the identifier's segments in their written order |
| Paths.Div | x_cls_make_py_mod_sideload_x.py:90 | `base / name` keeps the path well-formed and appends a plain name as exactly one segment |
| Paths.JoinAll | x_cls_make_py_mod_sideload_x.py:95 | `base.joinpath(*names)` keeps the path well-formed |
| Paths.JoinAllSegments | x_cls_make_py_mod_sideload_x.py:95 | `joinpath` with plain segment names appends exactly those segments to the base |
| Locator.Candidates | x_cls_make_py_mod_sideload_x.py:88-97 | a `.py` identifier has one candidate, any other dotted identifier three, an undotted one two |
| Locator.NestedCandidate | x_cls_make_py_mod_sideload_x.py:93-95 | the nested candidate exists only when splitting on dots gives at least two parts |
| Locator.FallbackCandidates | x_cls_make_py_mod_sideload_x.py:96-97 | every non-`.py` identifier gets the flat file and the package entry file |
| Locator.CandidateWellFormed | x_cls_make_py_mod_sideload_x.py:88-97 | every candidate under a well-formed base is a well-formed path |
| Locator.FirstFile | x_cls_make_py_mod_sideload_x.py:99-101 | the scan stops at a candidate that is a file, having passed only candidates that are not; it runs off the end only when none is a file |
| Locator.ResolveModuleFile | x_cls_make_py_mod_sideload_x.py:73-106 | an empty base fails exactly as EmptyBasePath, and a missing base exactly as BasePathMissing, whatever the identifier. An absolute identifier naming a file wins. Otherwise the call succeeds exactly when some candidate is a file, returns the first such candidate, and fails with the identifier and base. A success is an existing file |
| Locator.ResolutionFailureRaised | x_cls_make_py_mod_sideload_x.py:75-106 | a resolution failure is ValueError for an empty base, FileNotFoundError for a missing base, and ImportError otherwise, with the raised text naming the rendered base and the identifier |
| Faults.Message | x_cls_make_py_mod_sideload_x.py:75-147 | the helper's own errors have non-empty texts: for the empty base, the missing base, the unresolvable module and the missing attribute. An exception from module code or a constructor keeps its own text |
| Locator.EarliestCandidateWins | x_cls_make_py_mod_sideload_x.py:99-101 | when candidate `i` is a file, resolution succeeds with candidate `i` or an earlier one |
| Locator.FirstCandidateChosen | x_cls_make_py_mod_sideload_x.py:99-101 | an existing first candidate is the result |
| Locator.SourceFileNameIsLiteral | x_cls_make_py_mod_sideload_x.py:89-90 | a `.py` identifier is the one file `base/identifier`, never split on dots and with no package fallback |
| Locator.NestedCandidateSpelled | x_cls_make_py_mod_sideload_x.py:92-95 | the nested candidate of parts `p1..pn` is `base/p1/.../p(n-1)/pn.py` |
| Locator.FallbackCandidatesSpelled | x_cls_make_py_mod_sideload_x.py:96-97 | the fallbacks of a plain name are `base/name.py` and then `base/name/__init__.py` |
| Locator.PlainNameCandidates | x_cls_make_py_mod_sideload_x.py:91-97 | for a name of non-empty dotted parts the candidates, in order, are the nested file (dotted names only), the flat file, and the package entry file |
| Locator.DottedNameFallsBack | x_cls_make_py_mod_sideload_x.py:92-101 | a dotted name whose nested file is missing still resolves to the flat file, or failing that the package entry file |
| Sideload.LoadModule | x_cls_make_py_mod_sideload_x.py:120-129 | a resolution failure propagates unchanged. After a successful resolution, loading succeeds exactly when the file's code runs, and otherwise fails with the exception that code raised. A loaded module comes from an existing file and holds the bindings its code left. Its `__file__` parses back to the located path, anchored at the current directory |
| Sideload.GetAttribute | x_cls_make_py_mod_sideload_x.py:132-153 | a missing name is exactly the AttributeError naming the module's file; a non-class member comes back unchanged; a class member comes back as a zero-argument instance, or its constructor's exception; a success is never a bare class |
| Sideload.Run | x_cls_make_py_mod_sideload_x.py:182-188 | a load failure comes first; without a member name a successful load gives exactly the loaded module; with one the result is what the loader's extraction returns |
| Sideload.DefaultLoader | x_cls_make_py_mod_sideload_x.py:162-167 | the default loader loads with `_load_module` and extracts with `_get_attribute` |
| Sideload.RunWithoutMember | x_cls_make_py_mod_sideload_x.py:182-187 | the default `run` without a member succeeds exactly when the file resolves and its code runs, and returns that module, with the bindings the code left and a `__file__` naming the located file made absolute |
| Sideload.RunWithMember | x_cls_make_py_mod_sideload_x.py:186-188 | the default `run` with a member returns an instance for a class member and the member itself otherwise; a name the module lacks is an AttributeError |
| Sideload.RunRejectsBadBase | x_cls_make_py_mod_sideload_x.py:74-82 | an empty base is a ValueError and a missing base a FileNotFoundError, whatever the module code would do |
| JsonContracts.ValidInputShape | json_contracts.py:31-41 | a valid request has exactly the keys `command` and `parameters`, the fixed command, and valid parameters with a non-empty base path and module |
| JsonContracts.ValidParameters | json_contracts.py:11-29 | the parameters schema: an object whose `base_path` and `module` are present non-empty strings, whose `attribute` is a non-empty string or null, whose `loader_options` is an object, and with no other keys |
| JsonContracts.ValidInput | json_contracts.py:31-41 | the input schema: an object with exactly `command`, equal to the fixed command, and valid `parameters` |
| JsonContracts.EmptyParametersRejected | json_contracts.py:11-29 | a request with empty parameters is invalid |
| JsonContracts.ParametersRejectUnknownKey | json_contracts.py:11-29 | parameters with a key other than the four described are invalid |
| JsonContracts.AttributeMustBeNullOrNonEmpty | json_contracts.py:16-21 | an empty attribute name is rejected and null is accepted |
| JsonContracts.ValidOutputShape | json_contracts.py:43-70 | a valid success reply has its four required keys, status "success", the fixed schema version and a known object kind |
| JsonContracts.ValidOutput | json_contracts.py:43-70 | the output schema: status "success", the fixed schema version, a non-empty module file, an attribute that is a non-empty string or null, a known object kind, valid messages, object metadata, the four required keys and no others |
| JsonContracts.ValidMessages | json_contracts.py:59-62 | an array whose items are all non-empty strings |
| JsonContracts.OutputRejectsUnknownKey | json_contracts.py:43-70 | a success reply with a key other than the seven described is invalid |
| JsonContracts.ErrorAllowsExtraKeys | json_contracts.py:74-88 | a valid failure reply stays valid when an undescribed key is added |
| JsonContracts.ValidError | json_contracts.py:74-88 | the error schema: status "failure", a non-empty message, object details, both required keys, other keys allowed |
| JsonContracts.SuccessAndFailureExclusive | json_contracts.py:43-88 | no reply is both a valid success and a valid failure |
| Pipeline.FailurePayload | x_cls_make_py_mod_sideload_x.py:204-212 | status is "failure" and the message is as given; details appear exactly when non-empty and are then exactly the given map; the payload has no keys besides status, message and details; the payload satisfies the error schema exactly when the message is non-empty |
| Pipeline.ViolationPayload | x_cls_make_py_mod_sideload_x.py:247-259 | the validator's report becomes a failure payload whose details are exactly its message, path and schema path; the same shape serves the output check at :360-373 |
| Pipeline.ValidateRequiredInputs | x_cls_make_py_mod_sideload_x.py:237-244 | nothing is missing exactly when both names are present and non-empty; `base_path` is reported whenever it is absent or empty, before `module` |
| Pipeline.ExtractInputs | x_cls_make_py_mod_sideload_x.py:263-277 | reading each field as `_string_or_none` and `_ensure_json_mapping` do (:215-226), extraction succeeds exactly when the base path and the module are both non-empty strings, and the inputs carry those values. A failure is a valid error payload. It names `base_path` with "base_path must be a non-empty string" when the base path is missing, and otherwise `module` with "module must be a non-empty string", in details `{"field": …}` |
| Pipeline.ParametersOf | x_cls_make_py_mod_sideload_x.py:229-234 | the request's `parameters` object, or an empty one when it is absent or not an object |
| Pipeline.LoadTargetModule | x_cls_make_py_mod_sideload_x.py:289-308 | it continues with the loaded module exactly when loading succeeds, and stops with "module resolution failed" exactly when loading raises FileNotFoundError, ImportError, ValueError or OSError, or a subclass of one of them; any other exception escapes as the load's own exception. A stop's details are exactly the exception's message, the base path and the module name |
| Pipeline.ResolveAttributeIfRequested | x_cls_make_py_mod_sideload_x.py:311-335 | with no or an empty attribute name it is "module" and the context is unchanged. Otherwise a successful lookup always continues as "attribute", with the attribute's type recorded and the resolution message appended. It stops with "attribute resolution failed" exactly on an AttributeError or a subclass, and any other exception escapes as the lookup's own. A stop's details are exactly the exception's message, the attribute name and the module file |
| Pipeline.ComposeSuccessPayload | x_cls_make_py_mod_sideload_x.py:338-357 | the payload satisfies the output schema exactly when the module file is non-empty, the attribute is absent or non-empty, the kind is known and every message is non-empty; messages and metadata appear exactly when non-empty, and then hold exactly the given list and map |
| Pipeline.InitialMetadata | x_cls_make_py_mod_sideload_x.py:389-391 | the starting metadata holds the module name, plus the loader options exactly when there are some, and nothing else |
| Runtime.TypeName | x_cls_make_py_mod_sideload_x.py:333 | `type(o).__name__`: "module" for a module, "type" for a bare class, the class name for an instance, the value's own type name otherwise |
| Pipeline.MainJson | x_cls_make_py_mod_sideload_x.py:376-427 | every returned payload satisfies the output schema or the error schema |
| Pipeline.ValidRequestHasInputs | x_cls_make_py_mod_sideload_x.py:384-386 | after the input schema passes, input extraction always succeeds with the request's own values |
| Pipeline.SchemaFailureComesFirst | x_cls_make_py_mod_sideload_x.py:380-382 | a request failing the input schema gets exactly the validation failure payload built from the validator's report, whatever the filesystem and module code |
| Pipeline.LoadFailureComesSecond | x_cls_make_py_mod_sideload_x.py:393-399 | a caught load failure gives exactly the "module resolution failed" payload, with details holding the exception's message, the base path and the module name; any other escapes, and an unresolvable file runs no module code |
| Pipeline.AttributeFailureComesThird | x_cls_make_py_mod_sideload_x.py:407-414 | an AttributeError gives exactly the "attribute resolution failed" payload, with details holding the exception's message, the attribute name and the module file; any other exception escapes |
| Pipeline.SuccessOtherwise | x_cls_make_py_mod_sideload_x.py:416-427 | otherwise the reply satisfies the output schema. It names the located file made absolute, says "module" exactly when no attribute was asked for, and carries the load and resolution messages. Its metadata holds the module name, the loader options when any were given, and the attribute's type name when an attribute was asked for |
| Scenarios.PkgInnerResolves | tests/test_py_module_sideload.py:150-167 | "pkg.inner" under a base holding `pkg/__init__.py` and `pkg/inner.py` resolves to `pkg/inner.py` |
| Scenarios.SourceNameNotSplit | x_cls_make_py_mod_sideload_x.py:89-90 | "pkg.mod.py" is the literal file `base/pkg.mod.py` |
| Scenarios.MissingModuleIsImportError | tests/test_py_module_sideload.py:122-129 | a name with no file in an existing base is an ImportError naming the module and base |
| Scenarios.ClassMemberIsInstantiated | tests/test_py_module_sideload.py:77-112 | a class member comes back as an instance; a name the module lacks is an AttributeError |
| Scenarios.EmptyRequestFailsValidation | tests/test_json_contracts.py:184-193 | a request with empty parameters is answered "input payload failed validation" with status "failure" |
| Scenarios.SubclassesAreCaught | x_cls_make_py_mod_sideload_x.py:292-302 | a ModuleNotFoundError, PermissionError or UnicodeDecodeError from module code is a resolution failure, an unrelated RuntimeError escapes, and an AttributeError subclass is an AttributeError |

## Left out

- Executing module code (`spec_from_file_location`, `module_from_spec`, `exec_module`) is foreign. It is an input function from the located path to the resulting bindings or the raised exception.
- `_create_spec` failing is not modelled. For a located file without a suffix importlib recognises (`.py`, `.pyc` or an extension-module suffix such as `.so`), no loader is found and an ImportError "Failed to create module spec" is raised. This can only happen through the absolute-file rule. Loading a `.pyc` or extension module is module execution like any other, so it is part of the executor input. The `sideload_<hash>` module name depends on the process's hash seed and is not modelled either.
- Module code that rebinds or deletes `__file__` is not modelled. The module's `__file__` is always the located file, made absolute, so the fallback to re-resolution in `_load_target_module` never runs.
- The jsonschema engine and `validate_payload` are not part of this model. The three schemas are restated as predicates. The validator's error message and paths are an input.
- The command line, argparse and reading JSON from stdin or a file (`_load_json_payload`, `_run_json_cli`) are I/O.
- `PathLike` and `fspath` coercions of the base path and of `__file__` are not modelled. Base paths are strings.
- Paths are not resolved further: `..` segments and symbolic links are kept as written, and POSIX's special leading `//` is not modelled. A relative path is only taken against the current directory.
- Exception classes have one base class each. Multiple inheritance among exception classes is not modelled.
- Filesystem errors other than "does not exist" are not modelled: `exists()` and `is_file()` are plain membership tests.
- `Message`: the attribute name is quoted with single quotes. Python's `repr` escaping of names that contain quotes or backslashes is not modelled.
- JSON numbers are integers. Floating point does not affect any rule here.
- The identity of objects is abstract. A plain member is returned as the same value, and a new instance is returned as its class name.
- `hasattr` and `getattr` on a module are lookups in its bindings. The bindings are what the executor reports for the module's namespace. That includes the globals the import system sets there (`__name__`, `__file__`, `__spec__`, …) only when the executor lists them. Attributes found on the module's type rather than in its namespace are not modelled, `__class__` and `__dict__` for example. A request for `__class__` would construct `ModuleType()` and escape with a TypeError; `__dict__` would succeed with a dict. Module-level `__getattr__` hooks are not modelled either.
- `__init__.py` of the package only re-exports and is not modelled.

=== FILE: contracts.dfy ===
/** The three JSON schemas of the helper's JSON interface, each restated as
    a validity predicate. Each predicate follows its schema's own layout:
    per-property constraints that apply when the property is present, the
    required properties, and whether other properties are allowed. Any JSON
    value satisfies the schema used for free-form values, so maps of such
    values only have to be objects. */
module JsonContracts {
  import opened JsonValues

  const Command := "x_make_py_mod_sideload_x"
  const OutputSchemaVersion := "x_make_py_mod_sideload_x.run/1.0"

  const ParameterProperties: set<string> := {"base_path", "module", "attribute", "loader_options"}
  const ParameterRequired: set<string> := {"base_path", "module"}
  const InputProperties: set<string> := {"command", "parameters"}
  const InputRequired: set<string> := {"command", "parameters"}
  const OutputProperties: set<string> :=
    {"status", "schema_version", "module_file", "attribute", "object_kind", "messages", "metadata"}
  const OutputRequired: set<string> := {"status", "schema_version", "module_file", "object_kind"}
  const ErrorRequired: set<string> := {"status", "message"}
  const ObjectKinds: set<string> := {"module", "attribute"}

  /** The parameters object of a request. */
  predicate ValidParameters(j: Json) {
    && j.JObj?
    && ("base_path" in j.fields ==> NonEmptyString(j.fields["base_path"]))
    && ("module" in j.fields ==> NonEmptyString(j.fields["module"]))
    && ("attribute" in j.fields ==> NullableName(j.fields["attribute"]))
    && ("loader_options" in j.fields ==> j.fields["loader_options"].JObj?)
    && ParameterRequired <= j.fields.Keys
    && j.fields.Keys <= ParameterProperties
  }

  /** A request. */
  predicate ValidInput(j: Json) {
    && j.JObj?
    && ("command" in j.fields ==> j.fields["command"] == JStr(Command))
    && ("parameters" in j.fields ==> ValidParameters(j.fields["parameters"]))
    && InputRequired <= j.fields.Keys
    && j.fields.Keys <= InputProperties
  }

  /** A success reply. */
  predicate ValidOutput(j: Json) {
    && j.JObj?
    && ("status" in j.fields ==> j.fields["status"] == JStr("success"))
    && ("schema_version" in j.fields ==> j.fields["schema_version"] == JStr(OutputSchemaVersion))
    && ("module_file" in j.fields ==> NonEmptyString(j.fields["module_file"]))
    && ("attribute" in j.fields ==> NullableName(j.fields["attribute"]))
    && ("object_kind" in j.fields ==> j.fields["object_kind"].JStr? && j.fields["object_kind"].s in ObjectKinds)
    && ("messages" in j.fields ==> ValidMessages(j.fields["messages"]))
    && ("metadata" in j.fields ==> j.fields["metadata"].JObj?)
    && OutputRequired <= j.fields.Keys
    && j.fields.Keys <= OutputProperties
  }

  /** The `messages` array of a success reply: non-empty strings only. */
  predicate ValidMessages(j: Json) {
    j.JArr? && forall i :: 0 <= i < |j.items| ==> NonEmptyString(j.items[i])
  }

  /** A failure reply. Other top-level properties are allowed. */
  predicate ValidError(j: Json) {
    && j.JObj?
    && ("status" in j.fields ==> j.fields["status"] == JStr("failure"))
    && ("message" in j.fields ==> NonEmptyString(j.fields["message"]))
    && ("details" in j.fields ==> j.fields["details"].JObj?)
    && ErrorRequired <= j.fields.Keys
  }

  /** A valid request has exactly the two keys, the fixed command, and
      parameters carrying a non-empty base path and module name. */
  lemma ValidInputShape(j: Json)
    ensures ValidInput(j) <==>
      && j.JObj?
      && j.fields.Keys == {"command", "parameters"}
      && j.fields["command"] == JStr(Command)
      && ValidParameters(j.fields["parameters"])
    ensures ValidInput(j) ==>
      var p := j.fields["parameters"].fields;
      && "base_path" in p && NonEmptyString(p["base_path"])
      && "module" in p && NonEmptyString(p["module"])
  {
  }

  /** A success reply has its four required keys, at most three optional
      ones, and the fixed status and schema version. */
  lemma ValidOutputShape(j: Json)
    ensures ValidOutput(j) ==>
      && {"status", "schema_version", "module_file", "object_kind"} <= j.fields.Keys
      && j.fields["status"] == JStr("success")
      && j.fields["schema_version"] == JStr(OutputSchemaVersion)
      && (j.fields["object_kind"] == JStr("module") || j.fields["object_kind"] == JStr("attribute"))
  {
  }

  /** No reply is both a valid success and a valid failure. */
  lemma SuccessAndFailureExclusive(j: Json)
    ensures !(ValidOutput(j) && ValidError(j))
  {
  }

  /** A request whose parameters are empty is rejected: the base path and
      module name are required. */
  lemma EmptyParametersRejected()
    ensures !ValidInput(JObj(map["command" := JStr(Command), "parameters" := JObj(map[])]))
  {
    var params := JObj(map[]);
    assert "base_path" !in params.fields;
  }

  /** An empty attribute name is rejected; null is accepted. */
  lemma AttributeMustBeNullOrNonEmpty(base: string, moduleName: string)
    requires base != "" && moduleName != ""
    ensures !ValidParameters(JObj(map["base_path" := JStr(base), "module" := JStr(moduleName), "attribute" := JStr("")]))
    ensures ValidParameters(JObj(map["base_path" := JStr(base), "module" := JStr(moduleName), "attribute" := JNull]))
  {
  }

  /** A failure reply stays valid when any key the error schema does not
      describe is added to it. */
  lemma ErrorAllowsExtraKeys(fields: map<string, Json>, key: string, v: Json)
    requires ValidError(JObj(fields))
    requires key !in {"status", "message", "details"}
    ensures ValidError(JObj(fields[key := v]))
  {
  }

  /** A success reply with any key outside the seven described ones is
      rejected. */
  lemma OutputRejectsUnknownKey(fields: map<string, Json>, key: string, v: Json)
    requires key !in OutputProperties
    ensures !ValidOutput(JObj(fields[key := v]))
  {
  }

  /** Parameters with any key outside the four described ones are rejected. */
  lemma ParametersRejectUnknownKey(fields: map<string, Json>, key: string, v: Json)
    requires key !in ParameterProperties
    ensures !ValidParameters(JObj(fields[key := v]))
  {
  }
}

=== FILE: faults.dfy ===
/** The ways a sideload call can fail, each with the Python exception class
    it surfaces as and the text `str(exc)` gives. */
module Faults {
  import opened Paths
  import opened Runtime

  datatype Fault =
      /** `base_path` was the empty string (ValueError). */
    | EmptyBasePath
      /** `base_path` names nothing on disk (FileNotFoundError). */
    | BasePathMissing(base: Path)
      /** No resolution rule found a file (ImportError). */
    | Unresolvable(moduleName: string, base: Path)
      /** The module's top-level code raised; propagated unchanged. */
    | ExecFailed(exc: Exc)
      /** The requested attribute is not bound in the module (AttributeError). */
    | NoSuchAttribute(name: string, moduleFile: string)
      /** Zero-argument construction of a member class raised; propagated
          unchanged. */
    | ConstructorFailed(name: string, exc: Exc)

  /** The class of the exception the fault is raised as. */
  function ClassOf(f: Fault): ExcClass {
    match f
    case EmptyBasePath => ValueError
    case BasePathMissing(_) => FileNotFoundError
    case Unresolvable(_, _) => ImportError
    case ExecFailed(e) => e.cls
    case NoSuchAttribute(_, _) => AttributeError
    case ConstructorFailed(_, e) => e.cls
  }

  /** The paths a fault mentions are ones pathlib could have produced. */
  predicate Describable(f: Fault) {
    f.BasePathMissing? || f.Unresolvable? ==> WellFormed(f.base)
  }

  /** `str(exc)` for the raised exception. */
  function Message(f: Fault): (s: string)
    requires Describable(f)
    // The helper's own errors always explain themselves; an exception from
    // module code keeps its own text.
    ensures !f.ExecFailed? && !f.ConstructorFailed? ==> |s| > 0
    ensures f.ExecFailed? || f.ConstructorFailed? ==> s == f.exc.text
  {
    match f
    case EmptyBasePath => "base_path must be a non-empty string"
    case BasePathMissing(base) => "base_path does not exist: " + Render(base)
    case Unresolvable(moduleName, base) =>
      "Cannot resolve module file for module=" + moduleName + " under base_path=" + Render(base)
    case ExecFailed(e) => e.text
    case NoSuchAttribute(name, file) =>
      "module loaded from " + file + " has no attribute '" + name + "'"
    case ConstructorFailed(_, e) => e.text
  }
}

=== FILE: json.dfy ===
/** JSON values as the helper exchanges them. Numbers are integers only. */
module JsonValues {
  import opened Results

  datatype Json =
    | JNull
    | JBool(b: bool)
    | JNum(n: int)
    | JStr(s: string)
    | JArr(items: seq<Json>)
    | JObj(fields: map<string, Json>)

  /** The `{"type": "string", "minLength": 1}` fragment. */
  predicate NonEmptyString(j: Json) {
    j.JStr? && |j.s| >= 1
  }

  /** The `oneOf: [non-empty string, null]` fragment; the two alternatives
      never overlap, so exactly one holds when this does. */
  predicate NullableName(j: Json) {
    NonEmptyString(j) || j.JNull?
  }

  /** `dict.get(key)`. */
  function Lookup(fields: map<string, Json>, key: string): (r: Option<Json>)
    ensures r.Some? <==> key in fields
    ensures r.Some? ==> r.value == fields[key]
  {
    if key in fields then Some(fields[key]) else None
  }

  /** A list of strings as a JSON array. */
  function StringArray(xs: seq<string>): (j: Json)
    ensures j.JArr? && |j.items| == |xs|
    ensures forall i :: 0 <= i < |xs| ==> j.items[i] == JStr(xs[i])
  {
    JArr(seq(|xs|, i requires 0 <= i < |xs| => JStr(xs[i])))
  }
}

=== FILE: locator.dfy ===
/** `_resolve_module_file`: turns a base directory and a module identifier
    into one existing source file, or the reason there is none. */
module Locator {
  import opened Results
  import opened Strings
  import opened Paths
  import opened Runtime
  import opened Faults

  const SourceSuffix := ".py"
  const PackageEntry := "__init__.py"

  /** The identifier is an absolute path naming an existing file: it is used
      as is, whatever the base. */
  predicate IsAbsoluteFile(fs: FileSystem, moduleName: string) {
    ParsePath(moduleName).absolute && fs.IsFile(ParsePath(moduleName))
  }

  /** The relative candidates, in the order they are tried. A name ending in
      ".py" is one literal file name; any other name may first be a dotted
      path to a nested file, then a flat file, then a package directory. */
  function Candidates(baseDir: Path, moduleName: string): (cs: seq<Path>)
    ensures |cs| == (if EndsWith(moduleName, SourceSuffix) then 1 else if '.' in moduleName then 3 else 2)
  {
    if EndsWith(moduleName, SourceSuffix) then [Div(baseDir, moduleName)]
    else NestedCandidate(baseDir, Split(moduleName, '.')) + FallbackCandidates(baseDir, moduleName)
  }

  /** Candidates under a well-formed base are well-formed paths. */
  lemma CandidateWellFormed(baseDir: Path, moduleName: string, i: nat)
    requires WellFormed(baseDir)
    requires i < |Candidates(baseDir, moduleName)|
    ensures WellFormed(Candidates(baseDir, moduleName)[i])
  {
    var cs := Candidates(baseDir, moduleName);
    if !EndsWith(moduleName, SourceSuffix) {
      var nested := NestedCandidate(baseDir, Split(moduleName, '.'));
      var fallback := FallbackCandidates(baseDir, moduleName);
      assert cs == nested + fallback;
      if i < |nested| {
        assert cs[i] == nested[i];
      } else if i == |nested| {
        assert cs[i] == fallback[0];
      } else {
        assert cs[i] == fallback[1];
      }
    }
  }

  /** For a name with at least two dotted parts, the file named by the last
      part inside the directories named by the others. */
  function NestedCandidate(baseDir: Path, parts: seq<string>): (cs: seq<Path>)
    requires |parts| >= 1
    ensures |cs| == (if |parts| > 1 then 1 else 0)
    ensures WellFormed(baseDir) ==> forall i :: 0 <= i < |cs| ==> WellFormed(cs[i])
  {
    if |parts| > 1 then [JoinAll(baseDir, parts[..|parts| - 1] + [parts[|parts| - 1] + SourceSuffix])]
    else []
  }

  /** The flat source file, then the package directory's entry file. */
  function FallbackCandidates(baseDir: Path, moduleName: string): (cs: seq<Path>)
    ensures |cs| == 2
    ensures WellFormed(baseDir) ==> WellFormed(cs[0]) && WellFormed(cs[1])
  {
    [Div(baseDir, moduleName + SourceSuffix), Div(Div(baseDir, moduleName), PackageEntry)]
  }

  /** Position of the first candidate that is an existing file, or |cs| when
      there is none. */
  function FirstFile(fs: FileSystem, cs: seq<Path>): (k: nat)
    ensures k <= |cs|
    ensures k < |cs| ==> fs.IsFile(cs[k])
    ensures forall j :: 0 <= j < k ==> !fs.IsFile(cs[j])
  {
    if |cs| == 0 then 0
    else if fs.IsFile(cs[0]) then 0
    else 1 + FirstFile(fs, cs[1..])
  }

  /** The base directory passed both preliminary checks. */
  predicate BaseUsable(fs: FileSystem, base: string) {
    base != "" && fs.Exists(ParsePath(base))
  }

  function ResolveModuleFile(fs: FileSystem, base: string, moduleName: string): (r: Result<Path, Fault>)
    // The base is checked first, and the identifier plays no part in it.
    ensures base == "" <==> r == Failure(EmptyBasePath)
    ensures base != "" && !fs.Exists(ParsePath(base)) <==> r == Failure(BasePathMissing(ParsePath(base)))
    // An absolute path to an existing file wins over every candidate.
    ensures BaseUsable(fs, base) && IsAbsoluteFile(fs, moduleName) ==> r == Success(ParsePath(moduleName))
    // Otherwise the first existing candidate is chosen, and failure means none exists.
    ensures BaseUsable(fs, base) && !IsAbsoluteFile(fs, moduleName) ==>
      var cs := Candidates(ParsePath(base), moduleName);
      && (r.Success? <==> exists i :: 0 <= i < |cs| && fs.IsFile(cs[i]))
      && (r.Success? ==> exists k :: 0 <= k < |cs| && r.value == cs[k] && forall j :: 0 <= j < k ==> !fs.IsFile(cs[j]))
      && (r.Failure? ==> r.error == Unresolvable(moduleName, ParsePath(base)))
    // Whatever is returned is an existing file with a well-formed path.
    ensures r.Success? ==> fs.IsFile(r.value) && WellFormed(r.value)
    ensures r.Failure? ==> Describable(r.error)
  {
    if base == "" then Failure(EmptyBasePath)
    else
      var baseDir := ParsePath(base);
      if !fs.Exists(baseDir) then Failure(BasePathMissing(baseDir))
      else if IsAbsoluteFile(fs, moduleName) then Success(ParsePath(moduleName))
      else
        var cs := Candidates(baseDir, moduleName);
        var k := FirstFile(fs, cs);
        if k < |cs| then
          CandidateWellFormed(baseDir, moduleName, k);
          Success(cs[k])
        else Failure(Unresolvable(moduleName, baseDir))
  }

  /** A resolution failure is raised as ValueError for an empty base,
      FileNotFoundError for a missing one, and ImportError otherwise, with
      the base rendered as pathlib prints it. */
  lemma ResolutionFailureRaised(fs: FileSystem, base: string, moduleName: string)
    requires ResolveModuleFile(fs, base, moduleName).Failure?
    ensures var f := ResolveModuleFile(fs, base, moduleName).error;
      var baseDir := ParsePath(base);
      && ClassOf(f) == (if base == "" then ValueError else if !fs.Exists(baseDir) then FileNotFoundError else ImportError)
      && (base != "" && !fs.Exists(baseDir) ==> Message(f) == "base_path does not exist: " + Render(baseDir))
      && (BaseUsable(fs, base) ==>
            Message(f) == "Cannot resolve module file for module=" + moduleName + " under base_path=" + Render(baseDir))
  {
  }

  /** A candidate that exists is never passed over for a later one. */
  lemma EarliestCandidateWins(fs: FileSystem, base: string, moduleName: string, i: nat)
    requires BaseUsable(fs, base) && !IsAbsoluteFile(fs, moduleName)
    requires i < |Candidates(ParsePath(base), moduleName)|
    requires fs.IsFile(Candidates(ParsePath(base), moduleName)[i])
    ensures var r := ResolveModuleFile(fs, base, moduleName);
      r.Success? && exists k :: 0 <= k <= i && r.value == Candidates(ParsePath(base), moduleName)[k]
  {
    var cs := Candidates(ParsePath(base), moduleName);
    var r := ResolveModuleFile(fs, base, moduleName);
    var k :| 0 <= k < |cs| && r.value == cs[k] && forall j :: 0 <= j < k ==> !fs.IsFile(cs[j]);
    assert k <= i;
  }

  /** An existing first candidate is the answer. */
  lemma FirstCandidateChosen(fs: FileSystem, base: string, moduleName: string)
    requires BaseUsable(fs, base) && !IsAbsoluteFile(fs, moduleName)
    requires fs.IsFile(Candidates(ParsePath(base), moduleName)[0])
    ensures ResolveModuleFile(fs, base, moduleName) == Success(Candidates(ParsePath(base), moduleName)[0])
  {
  }

  /** An identifier ending in ".py" is one literal file name under the base:
      it is not split on dots and has no package fallback. */
  lemma SourceFileNameIsLiteral(baseDir: Path, moduleName: string)
    requires EndsWith(moduleName, SourceSuffix) && IsSegment(moduleName)
    ensures Candidates(baseDir, moduleName) == [Path(baseDir.absolute, baseDir.segs + [moduleName])]
  {
    ParseSegment(moduleName);
  }

  /** The nested candidate of plain dotted parts, spelled out as segments. */
  lemma NestedCandidateSpelled(baseDir: Path, parts: seq<string>)
    requires |parts| > 1
    requires forall i :: 0 <= i < |parts| ==> parts[i] != "" && '/' !in parts[i] && '.' !in parts[i]
    ensures NestedCandidate(baseDir, parts) ==
      [Path(baseDir.absolute, baseDir.segs + parts[..|parts| - 1] + [parts[|parts| - 1] + SourceSuffix])]
  {
    var n := |parts|;
    var names := parts[..n - 1] + [parts[n - 1] + SourceSuffix];
    forall i | 0 <= i < |names|
      ensures IsSegment(names[i])
    {
      if i < n - 1 {
        assert names[i] == parts[i];
      } else {
        assert names[i] == parts[n - 1] + SourceSuffix;
      }
    }
    JoinAllSegments(baseDir, names);
    assert baseDir.segs + names == baseDir.segs + parts[..n - 1] + [parts[n - 1] + SourceSuffix];
  }

  /** The flat and package candidates of a plain name, spelled out. */
  lemma FallbackCandidatesSpelled(baseDir: Path, moduleName: string)
    requires IsSegment(moduleName)
    ensures FallbackCandidates(baseDir, moduleName) ==
      [Path(baseDir.absolute, baseDir.segs + [moduleName + SourceSuffix]),
       Path(baseDir.absolute, baseDir.segs + [moduleName, PackageEntry])]
  {
    FlatCandidateSpelled(baseDir, moduleName);
    PackageCandidateSpelled(baseDir, moduleName);
  }

  lemma FlatCandidateSpelled(baseDir: Path, moduleName: string)
    requires IsSegment(moduleName)
    ensures Div(baseDir, moduleName + SourceSuffix) == Path(baseDir.absolute, baseDir.segs + [moduleName + SourceSuffix])
  {
    SourceFileNameParses(moduleName);
  }

  lemma PackageCandidateSpelled(baseDir: Path, moduleName: string)
    requires IsSegment(moduleName)
    ensures Div(Div(baseDir, moduleName), PackageEntry) == Path(baseDir.absolute, baseDir.segs + [moduleName, PackageEntry])
  {
    ParseSegment(moduleName);
    PackageEntryParses();
    assert baseDir.segs + [moduleName] + [PackageEntry] == baseDir.segs + [moduleName, PackageEntry];
  }

  lemma SourceFileNameParses(moduleName: string)
    requires IsSegment(moduleName)
    ensures ParsePath(moduleName + SourceSuffix) == Path(false, [moduleName + SourceSuffix])
  {
    assert (moduleName + SourceSuffix)[|moduleName|] == '.';
    ParseSegment(moduleName + SourceSuffix);
  }

  lemma PackageEntryParses()
    ensures ParsePath(PackageEntry) == Path(false, [PackageEntry])
  {
    ParseSegment(PackageEntry);
  }

  /** A name made of plain dotted parts is a plain segment itself. */
  lemma PlainNameIsSegment(moduleName: string)
    requires moduleName != "" && '/' !in moduleName
    requires forall i :: 0 <= i < |Split(moduleName, '.')| ==> Split(moduleName, '.')[i] != ""
    ensures IsSegment(moduleName)
  {
    SplitStep(moduleName, '.');
    assert Split(moduleName, '.')[0] != "";
    assert moduleName[0] != '.';
  }

  /** The candidates of a plain dotted or undotted name: the nested file (for
      a dotted name), then the flat file, then the package entry file, each
      spelled out as segments under the base. */
  lemma PlainNameCandidates(baseDir: Path, moduleName: string)
    requires !EndsWith(moduleName, SourceSuffix)
    requires moduleName != "" && '/' !in moduleName
    requires forall i :: 0 <= i < |Split(moduleName, '.')| ==> Split(moduleName, '.')[i] != ""
    ensures var cs := Candidates(baseDir, moduleName);
      var parts := Split(moduleName, '.');
      && (|parts| > 1 ==> cs[0] == Path(baseDir.absolute, baseDir.segs + parts[..|parts| - 1] + [parts[|parts| - 1] + SourceSuffix]))
      && cs[|cs| - 2] == Path(baseDir.absolute, baseDir.segs + [moduleName + SourceSuffix])
      && cs[|cs| - 1] == Path(baseDir.absolute, baseDir.segs + [moduleName, PackageEntry])
  {
    var parts := Split(moduleName, '.');
    var nested := NestedCandidate(baseDir, parts);
    var fallback := FallbackCandidates(baseDir, moduleName);
    assert Candidates(baseDir, moduleName) == nested + fallback;
    if |parts| > 1 {
      forall i | 0 <= i < |parts|
        ensures '/' !in parts[i]
      {
        forall c | c in parts[i]
          ensures c != '/'
        {
          SplitPartsFromSource(moduleName, '.', i, c);
        }
      }
      NestedCandidateSpelled(baseDir, parts);
    }
    PlainNameIsSegment(moduleName);
    FallbackCandidatesSpelled(baseDir, moduleName);
  }

  /** A dotted name whose nested file is missing still falls back to the flat
      file and then to the package entry file. */
  lemma DottedNameFallsBack(fs: FileSystem, base: string, moduleName: string)
    requires BaseUsable(fs, base) && !IsAbsoluteFile(fs, moduleName)
    requires !EndsWith(moduleName, SourceSuffix) && '.' in moduleName
    requires !fs.IsFile(Candidates(ParsePath(base), moduleName)[0])
    ensures var cs := Candidates(ParsePath(base), moduleName);
      && (fs.IsFile(cs[1]) ==> ResolveModuleFile(fs, base, moduleName) == Success(cs[1]))
      && (!fs.IsFile(cs[1]) && fs.IsFile(cs[2]) ==> ResolveModuleFile(fs, base, moduleName) == Success(cs[2]))
  {
    var cs := Candidates(ParsePath(base), moduleName);
    assert cs[1..][1..] == cs[2..];
  }
}

=== FILE: paths.dfy ===
/** POSIX paths as pathlib sees them, and the read-only filesystem the
    locator queries. */
module Paths {
  import opened Strings

  /** A parsed path: whether it is rooted, and its segments in order. */
  datatype Path = Path(absolute: bool, segs: seq<string>)

  /** A segment pathlib keeps after parsing: not empty, not ".", no '/'. */
  predicate IsSegment(s: string) {
    s != "" && s != "." && '/' !in s
  }

  predicate WellFormed(p: Path) {
    forall i :: 0 <= i < |p.segs| ==> IsSegment(p.segs[i])
  }

  /** Drops the pieces pathlib discards: empty ones (from "//" or a trailing
      '/') and ".". */
  function Segments(pieces: seq<string>): (segs: seq<string>)
    ensures |segs| <= |pieces|
    ensures forall i :: 0 <= i < |segs| ==> IsSegment(segs[i]) || '/' in segs[i]
  {
    if |pieces| == 0 then []
    else if pieces[0] == "" || pieces[0] == "." then Segments(pieces[1..])
    else [pieces[0]] + Segments(pieces[1..])
  }

  /** `Path(s)`: rooted exactly when `s` starts with '/'. */
  function ParsePath(s: string): (p: Path)
    ensures p.absolute <==> |s| > 0 && s[0] == '/'
    ensures WellFormed(p)
  {
    var pieces := Split(s, '/');
    var segs := Segments(pieces);
    SegmentsOfSplit(pieces);
    Path(|s| > 0 && s[0] == '/', segs)
  }

  lemma SegmentsOfSplit(pieces: seq<string>)
    requires forall i :: 0 <= i < |pieces| ==> '/' !in pieces[i]
    ensures forall i :: 0 <= i < |Segments(pieces)| ==> IsSegment(Segments(pieces)[i])
  {
    if |pieces| > 0 {
      SegmentsOfSplit(pieces[1..]);
    }
  }

  /** `p.as_posix()` (equivalently `str(p)` on POSIX). Never empty: the
      empty relative path prints as ".". */
  function Render(p: Path): (s: string)
    requires WellFormed(p)
    ensures |s| > 0
  {
    if p.absolute then "/" + JoinWith(p.segs, '/')
    else if |p.segs| == 0 then "."
    else
      assert |JoinWith(p.segs, '/')| >= |p.segs[0]|;
      JoinWith(p.segs, '/')
  }

  /** `base / other`: an absolute right operand replaces the base. */
  function Join(base: Path, other: Path): (p: Path)
    ensures other.absolute ==> p == other
    ensures !other.absolute ==> p.absolute == base.absolute && |p.segs| == |base.segs| + |other.segs|
    ensures !other.absolute ==> p.segs[..|base.segs|] == base.segs && p.segs[|base.segs|..] == other.segs
    ensures WellFormed(base) && WellFormed(other) ==> WellFormed(p)
  {
    if other.absolute then other else Path(base.absolute, base.segs + other.segs)
  }

  /** Filtering the pieces of two texts one after the other is filtering
      their concatenation. */
  lemma {:induction false} SegmentsAppend(a: seq<string>, b: seq<string>)
    ensures Segments(a + b) == Segments(a) + Segments(b)
  {
    if |a| > 0 {
      assert (a + b)[0] == a[0];
      assert (a + b)[1..] == a[1..] + b;
      SegmentsAppend(a[1..], b);
    } else {
      assert a + b == b;
    }
  }

  /** Joining parsed paths agrees with joining their texts with '/': a
      relative identifier such as "sub/mod.py" lands below the base, its
      segments in their written order. */
  lemma TextJoin(a: string, b: string)
    requires a != "" && !ParsePath(b).absolute
    ensures Join(ParsePath(a), ParsePath(b)) == ParsePath(a + "/" + b)
  {
    SplitAround(a, b, '/');
    assert a + "/" + b == a + ['/'] + b;
    SegmentsAppend(Split(a, '/'), Split(b, '/'));
    assert (a + "/" + b)[0] == a[0];
  }

  /** `base / name` for a string operand: a plain name is appended as one
      segment. */
  function Div(base: Path, name: string): (p: Path)
    ensures WellFormed(base) ==> WellFormed(p)
    ensures IsSegment(name) ==> p == Path(base.absolute, base.segs + [name])
  {
    if IsSegment(name) then
      ParseSegment(name);
      Join(base, ParsePath(name))
    else Join(base, ParsePath(name))
  }

  /** `base.joinpath(*names)`. */
  function JoinAll(base: Path, names: seq<string>): (p: Path)
    ensures WellFormed(base) ==> WellFormed(p)
    decreases |names|
  {
    if |names| == 0 then base else JoinAll(Div(base, names[0]), names[1..])
  }

  /** A directory the process can stand in: absolute and well-formed. */
  type Directory = p: Path | p.absolute && WellFormed(p) witness Path(true, [])

  /** The filesystem as the locator sees it: which absolute paths are
      regular files and which are directories, and the current directory a
      relative path is taken against. */
  datatype FileSystem = FileSystem(files: set<Path>, dirs: set<Path>, cwd: Directory) {
    /** `os.path.abspath`-style anchoring: a relative path is taken against
        the current directory. */
    function Anchor(p: Path): (q: Path)
      ensures q.absolute
      ensures p.absolute ==> q == p
      ensures !p.absolute ==> q.segs == cwd.segs + p.segs
      ensures WellFormed(p) ==> WellFormed(q)
    {
      if p.absolute then p else Path(true, cwd.segs + p.segs)
    }
    /** `p.is_file()` */
    predicate IsFile(p: Path) {
      Anchor(p) in files
    }
    /** `p.exists()` */
    predicate Exists(p: Path) {
      Anchor(p) in files || Anchor(p) in dirs
    }
  }

  /** Pieces that are all segments survive the filter untouched. */
  lemma {:induction false} SegmentsKeepsSegments(pieces: seq<string>)
    requires forall i :: 0 <= i < |pieces| ==> IsSegment(pieces[i])
    ensures Segments(pieces) == pieces
  {
    if |pieces| > 0 {
      SegmentsKeepsSegments(pieces[1..]);
      assert pieces == [pieces[0]] + pieces[1..];
    }
  }

  /** A single segment name parses to a one-segment relative path. */
  lemma ParseSegment(name: string)
    requires IsSegment(name)
    ensures ParsePath(name) == Path(false, [name])
  {
    SplitWithoutSeparator(name, '/');
  }

  /** Printing a well-formed path and parsing the text back gives the same
      path: the `module_file` string names exactly the resolved file. */
  lemma {:induction false} ParseRender(p: Path)
    requires WellFormed(p)
    ensures ParsePath(Render(p)) == p
  {
    var s := Render(p);
    if |p.segs| == 0 {
      if p.absolute {
        assert s == "/";
        assert Split(s, '/') == ["", ""] by {
          SplitAround("", "", '/');
          assert "" + ['/'] + "" == s;
        }
        assert Segments(["", ""]) == [];
      } else {
        assert s == ".";
        SplitWithoutSeparator(s, '/');
      }
    } else {
      var joined := JoinWith(p.segs, '/');
      assert forall i :: 0 <= i < |p.segs| ==> '/' !in p.segs[i];
      SplitJoin(p.segs, '/');
      SegmentsKeepsSegments(p.segs);
      if p.absolute {
        assert s == "" + ['/'] + joined;
        SplitAround("", joined, '/');
        assert Split(s, '/') == [""] + p.segs;
      } else {
        assert s == joined;
      }
    }
  }

  /** Joining plain segment names one by one appends them to the base. */
  lemma {:induction false} JoinAllSegments(base: Path, names: seq<string>)
    requires forall i :: 0 <= i < |names| ==> IsSegment(names[i])
    ensures JoinAll(base, names) == Path(base.absolute, base.segs + names)
    decreases |names|
  {
    if |names| > 0 {
      ParseSegment(names[0]);
      var next := Div(base, names[0]);
      assert next == Path(base.absolute, base.segs + [names[0]]);
      JoinAllSegments(next, names[1..]);
      assert base.segs + [names[0]] + names[1..] == base.segs + names;
    }
  }
}

=== FILE: pipeline.dfy ===
/** `main_json`: validate a JSON request, sideload the named module, resolve
    the optional attribute, and answer with a success or failure payload. */
module Pipeline {
  import opened Results
  import opened Paths
  import opened Runtime
  import opened Faults
  import opened Locator
  import opened Sideload
  import opened JsonValues
  import opened JsonContracts

  const SchemaVersion := "x_make_py_mod_sideload_x.run/1.0"

  const InputFailedMessage := "input payload failed validation"
  const ResolutionFailedMessage := "module resolution failed"
  const AttributeFailedMessage := "attribute resolution failed"
  const OutputFailedMessage := "generated output failed schema validation"

  /** What a schema validator reports about a value that fails a schema:
      its message, the path to the offending value, and the path inside the
      schema. Its wording is the validator's business. */
  datatype Violation = Violation(message: string, path: seq<string>, schemaPath: seq<string>)

  /** The validator's report on a value, supplied from outside. */
  type Explainer = Json -> Violation

  /** The outcome of `main_json`: a payload, or an exception it lets escape. */
  datatype Reply = Returned(payload: Json) | Raised(fault: Fault)

  /** One stage of the pipeline: carry on with a value, stop with a failure
      payload, or let an exception escape. */
  datatype Step<+T> = Continue(value: T) | Stop(payload: Json) | Escape(fault: Fault)

  /** `_CoreInputs`. */
  datatype CoreInputs = CoreInputs(
    basePath: string,
    moduleName: string,
    attributeName: Option<string>,
    loaderOptions: map<string, Json>)

  /** The attribute context: the module file, metadata and messages that
      attribute resolution adds to. */
  datatype Context = Context(moduleFile: string, metadata: map<string, Json>, messages: seq<string>)

  /** `_failure_payload`: status "failure", the message, and the details only
      when there are any. */
  function FailurePayload(message: string, details: map<string, Json>): (j: Json)
    ensures ValidError(j) <==> message != ""
    ensures j.JObj? && "status" in j.fields && "message" in j.fields
    ensures j.fields["status"] == JStr("failure") && j.fields["message"] == JStr(message)
    ensures "details" in j.fields <==> |details| > 0
    ensures "details" in j.fields ==> j.fields["details"] == JObj(details)
    ensures j.fields.Keys == {"status", "message"} + (if |details| > 0 then {"details"} else {})
  {
    var core := map["status" := JStr("failure"), "message" := JStr(message)];
    if |details| > 0 then JObj(core["details" := JObj(details)]) else JObj(core)
  }

  /** The failure payload built from a validator's report: its details are
      exactly the report's message, path and schema path. */
  function ViolationPayload(message: string, v: Violation): (j: Json)
    ensures ValidError(j) <==> message != ""
    ensures j.JObj? && "status" in j.fields && "message" in j.fields && "details" in j.fields
    ensures j.fields["status"] == JStr("failure") && j.fields["message"] == JStr(message)
    ensures var d := j.fields["details"];
      && d.JObj? && d.fields.Keys == {"error", "path", "schema_path"}
      && d.fields["error"] == JStr(v.message)
      && d.fields["path"] == StringArray(v.path)
      && d.fields["schema_path"] == StringArray(v.schemaPath)
  {
    FailurePayload(message, map[
      "error" := JStr(v.message),
      "path" := StringArray(v.path),
      "schema_path" := StringArray(v.schemaPath)])
  }

  /** `_string_or_none`: the string itself, or nothing for a missing key or a
      value of any other type. */
  function StringOrNone(v: Option<Json>): (r: Option<string>)
    ensures r.Some? <==> v.Some? && v.value.JStr?
    ensures r.Some? ==> v.value == JStr(r.value)
  {
    if v.Some? && v.value.JStr? then Some(v.value.s) else None
  }

  /** The name of a missing required field and the message reporting it. */
  datatype Missing = Missing(field: string, message: string)

  /** `_validate_required_inputs`: an absent or empty base path is reported
      first, then an absent or empty module name. */
  function ValidateRequiredInputs(basePath: Option<string>, moduleName: Option<string>): (r: Option<Missing>)
    ensures r.None? <==> basePath.Some? && basePath.value != "" && moduleName.Some? && moduleName.value != ""
    ensures r.Some? ==> (r.value.field == "base_path" <==> basePath.None? || basePath.value == "")
    ensures r.Some? ==> r.value.field in {"base_path", "module"} && r.value.message != ""
  {
    if basePath.None? || basePath.value == "" then Some(Missing("base_path", "base_path must be a non-empty string"))
    else if moduleName.None? || moduleName.value == "" then Some(Missing("module", "module must be a non-empty string"))
    else None
  }

  /** `_parameters_from_payload`: the parameters object, or an empty one. */
  function ParametersOf(payload: map<string, Json>): map<string, Json> {
    if "parameters" in payload && payload["parameters"].JObj? then payload["parameters"].fields else map[]
  }

  /** `_ensure_json_mapping`: an object's entries, or none. */
  function MappingOrEmpty(v: Option<Json>): (r: map<string, Json>)
    ensures v.Some? && v.value.JObj? ==> r == v.value.fields
    ensures !(v.Some? && v.value.JObj?) ==> r == map[]
  {
    if v.Some? && v.value.JObj? then v.value.fields else map[]
  }

  /** The parameter `key` is present and a non-empty string. */
  predicate ProvidedText(parameters: map<string, Json>, key: string) {
    key in parameters && parameters[key].JStr? && parameters[key].s != ""
  }

  /** `_extract_inputs`: the core inputs, or the failure payload for the
      first missing required field. */
  function ExtractInputs(payload: map<string, Json>): (r: Result<CoreInputs, Json>)
    ensures r.Success? ==> r.value.basePath != "" && r.value.moduleName != ""
    ensures r.Success? ==>
      var p := ParametersOf(payload);
      && "base_path" in p && p["base_path"] == JStr(r.value.basePath)
      && "module" in p && p["module"] == JStr(r.value.moduleName)
    ensures r.Failure? ==> ValidError(r.error)
    ensures var p := ParametersOf(payload);
      r.Success? <==> ProvidedText(p, "base_path") && ProvidedText(p, "module")
    ensures r.Failure? && !ProvidedText(ParametersOf(payload), "base_path") ==>
      r.error == FailurePayload("base_path must be a non-empty string", map["field" := JStr("base_path")])
    ensures r.Failure? && ProvidedText(ParametersOf(payload), "base_path") ==>
      r.error == FailurePayload("module must be a non-empty string", map["field" := JStr("module")])
  {
    var parameters := ParametersOf(payload);
    var basePath := StringOrNone(Lookup(parameters, "base_path"));
    var moduleName := StringOrNone(Lookup(parameters, "module"));
    var attributeName := StringOrNone(Lookup(parameters, "attribute"));
    var loaderOptions := MappingOrEmpty(Lookup(parameters, "loader_options"));
    match ValidateRequiredInputs(basePath, moduleName)
    case Some(missing) => Failure(FailurePayload(missing.message, map["field" := JStr(missing.field)]))
    case None => Success(CoreInputs(basePath.value, moduleName.value, attributeName, loaderOptions))
  }

  /** Exceptions `_load_target_module` turns into a failure payload. */
  predicate LoadCatches(c: ExcClass) {
    IsSubclass(c, FileNotFoundError) || IsSubclass(c, ImportError) || IsSubclass(c, ValueError) || IsSubclass(c, OSError)
  }

  /** `_load_target_module`: the loaded module and its file, a "module
      resolution failed" payload for the caught exceptions, or the escaping
      exception for any other. */
  function LoadTargetModule(fs: FileSystem, exec: Executor, basePath: string, moduleName: string): (r: Step<Module>)
    ensures r.Continue? <==> LoadModule(fs, exec, basePath, moduleName).Success?
    ensures r.Continue? ==> r.value == LoadModule(fs, exec, basePath, moduleName).value
    ensures r.Stop? <==> LoadModule(fs, exec, basePath, moduleName).Failure? && LoadCatches(ClassOf(LoadModule(fs, exec, basePath, moduleName).error))
    ensures r.Stop? ==> ValidError(r.payload) && r.payload.fields["message"] == JStr(ResolutionFailedMessage)
    ensures r.Escape? ==> r.fault == LoadModule(fs, exec, basePath, moduleName).error
    ensures r.Stop? ==>
      var f := LoadModule(fs, exec, basePath, moduleName).error;
      && Describable(f)
      && "details" in r.payload.fields
      && r.payload.fields["details"] == JObj(map[
           "error" := JStr(Message(f)),
           "base_path" := JStr(basePath),
           "module" := JStr(moduleName)])
  {
    match LoadModule(fs, exec, basePath, moduleName)
    case Success(m) => Continue(m)
    case Failure(f) =>
      if LoadCatches(ClassOf(f)) then
        Stop(FailurePayload(ResolutionFailedMessage, map[
          "error" := JStr(Message(f)),
          "base_path" := JStr(basePath),
          "module" := JStr(moduleName)]))
      else Escape(f)
  }

  /** No attribute was asked for: Python treats `None` and "" alike here. */
  predicate NoAttribute(attributeName: Option<string>) {
    attributeName.None? || attributeName.value == ""
  }

  /** `_resolve_attribute_if_requested`: "module" when no attribute is asked
      for; otherwise "attribute" with the attribute's type recorded in the
      metadata and a message added, or an "attribute resolution failed"
      payload for an AttributeError, or the escaping exception for any other. */
  function ResolveAttributeIfRequested(m: Module, attributeName: Option<string>, ctx: Context): (r: Step<(string, Context)>)
    ensures NoAttribute(attributeName) ==> r == Continue(("module", ctx))
    ensures !NoAttribute(attributeName) && r.Continue? ==>
      && r.value.0 == "attribute"
      && GetAttribute(m, attributeName.value).Success?
      && r.value.1.moduleFile == ctx.moduleFile
      && r.value.1.metadata == ctx.metadata["attribute_type" := JStr(TypeName(GetAttribute(m, attributeName.value).value))]
      && r.value.1.messages == ctx.messages + ["Resolved attribute " + attributeName.value]
    ensures r.Stop? <==> !NoAttribute(attributeName) && GetAttribute(m, attributeName.value).Failure?
                         && IsSubclass(ClassOf(GetAttribute(m, attributeName.value).error), AttributeError)
    ensures r.Stop? ==> ValidError(r.payload) && r.payload.fields["message"] == JStr(AttributeFailedMessage)
    ensures !NoAttribute(attributeName) && GetAttribute(m, attributeName.value).Success? ==> r.Continue?
    ensures r.Escape? ==> !NoAttribute(attributeName) && r.fault == GetAttribute(m, attributeName.value).error
    ensures r.Stop? ==>
      var f := GetAttribute(m, attributeName.value).error;
      && Describable(f)
      && "details" in r.payload.fields
      && r.payload.fields["details"] == JObj(map[
           "error" := JStr(Message(f)),
           "attribute" := JStr(attributeName.value),
           "module_file" := JStr(ctx.moduleFile)])
  {
    if NoAttribute(attributeName) then Continue(("module", ctx))
    else
      var name := attributeName.value;
      match GetAttribute(m, name)
      case Failure(f) =>
        if IsSubclass(ClassOf(f), AttributeError) then
          Stop(FailurePayload(AttributeFailedMessage, map[
            "error" := JStr(Message(f)),
            "attribute" := JStr(name),
            "module_file" := JStr(ctx.moduleFile)]))
        else Escape(f)
      case Success(o) =>
        Continue(("attribute", ctx.(
          metadata := ctx.metadata["attribute_type" := JStr(TypeName(o))],
          messages := ctx.messages + ["Resolved attribute " + name])))
  }

  /** The attribute name as JSON: null when absent. */
  function NameOrNull(name: Option<string>): Json {
    if name.Some? then JStr(name.value) else JNull
  }

  /** `_compose_success_payload`. It satisfies the output schema exactly when
      the module file is non-empty, the attribute name is absent or
      non-empty, the kind is one of the two known kinds, and every message is
      non-empty. Messages and metadata appear only when there are some. */
  function ComposeSuccessPayload(
    moduleFile: string, attributeName: Option<string>, objectKind: string,
    messages: seq<string>, metadata: map<string, Json>): (j: Json)
    ensures ValidOutput(j) <==>
      && moduleFile != ""
      && (attributeName.None? || attributeName.value != "")
      && objectKind in ObjectKinds
      && forall i :: 0 <= i < |messages| ==> messages[i] != ""
    ensures j.JObj? && "messages" in j.fields <==> |messages| > 0
    ensures j.JObj? && "metadata" in j.fields <==> |metadata| > 0
    ensures j.JObj? && {"status", "schema_version", "module_file", "attribute", "object_kind"} <= j.fields.Keys
    ensures j.fields["module_file"] == JStr(moduleFile) && j.fields["object_kind"] == JStr(objectKind)
    ensures j.fields["attribute"] == NameOrNull(attributeName)
    ensures |messages| > 0 ==> j.fields["messages"] == StringArray(messages)
    ensures |metadata| > 0 ==> j.fields["metadata"] == JObj(metadata)
  {
    var core := map[
      "status" := JStr("success"),
      "schema_version" := JStr(SchemaVersion),
      "module_file" := JStr(moduleFile),
      "attribute" := NameOrNull(attributeName),
      "object_kind" := JStr(objectKind)];
    var withMessages := if |messages| > 0 then core["messages" := StringArray(messages)] else core;
    var payload := if |metadata| > 0 then withMessages["metadata" := JObj(metadata)] else withMessages;
    assert |messages| > 0 ==> (ValidMessages(StringArray(messages)) <==> forall i :: 0 <= i < |messages| ==> messages[i] != "");
    JObj(payload)
  }

  /** The metadata `main_json` starts from: the module name, and the loader
      options when there are any. */
  function InitialMetadata(inputs: CoreInputs): (md: map<string, Json>)
    ensures "module_name" in md && md["module_name"] == JStr(inputs.moduleName)
    ensures "loader_options" in md <==> |inputs.loaderOptions| > 0
    ensures "loader_options" in md ==> md["loader_options"] == JObj(inputs.loaderOptions)
    ensures md.Keys <= {"module_name", "loader_options"}
  {
    var base := map["module_name" := JStr(inputs.moduleName)];
    if |inputs.loaderOptions| > 0 then base["loader_options" := JObj(inputs.loaderOptions)] else base
  }

  /** `main_json`, using the default loader over `fs` and `exec`. */
  function MainJson(fs: FileSystem, exec: Executor, explain: Explainer, payload: map<string, Json>): (r: Reply)
    ensures r.Returned? ==> ValidOutput(r.payload) || ValidError(r.payload)
  {
    if !ValidInput(JObj(payload)) then Returned(ViolationPayload(InputFailedMessage, explain(JObj(payload))))
    else
      match ExtractInputs(payload)
      case Failure(failure) => Returned(failure)
      case Success(inputs) =>
        match LoadTargetModule(fs, exec, inputs.basePath, inputs.moduleName)
        case Stop(failure) => Returned(failure)
        case Escape(f) => Raised(f)
        case Continue(m) =>
          var ctx := Context(m.file, InitialMetadata(inputs), ["Loaded " + inputs.moduleName]);
          match ResolveAttributeIfRequested(m, inputs.attributeName, ctx)
          case Stop(failure) => Returned(failure)
          case Escape(f) => Raised(f)
          case Continue((objectKind, ctx')) =>
            var result := ComposeSuccessPayload(m.file, inputs.attributeName, objectKind, ctx'.messages, ctx'.metadata);
            if !ValidOutput(result) then Returned(ViolationPayload(OutputFailedMessage, explain(result)))
            else Returned(result)
  }

  /** The `message` of a payload, or "" when it has none. */
  function MessageOf(j: Json): string {
    if j.JObj? && "message" in j.fields && j.fields["message"].JStr? then j.fields["message"].s else ""
  }

  /** The core inputs of a valid request, read directly off the request. */
  function RequestInputs(payload: map<string, Json>): CoreInputs
    requires ValidInput(JObj(payload))
  {
    var p := payload["parameters"].fields;
    CoreInputs(
      p["base_path"].s,
      p["module"].s,
      if "attribute" in p && p["attribute"].JStr? then Some(p["attribute"].s) else None,
      if "loader_options" in p then p["loader_options"].fields else map[])
  }

  /** Once the request passed the input schema, no required field can be
      missing: the second check never fires, and the attribute name is
      either absent or non-empty. */
  lemma ValidRequestHasInputs(payload: map<string, Json>)
    requires ValidInput(JObj(payload))
    ensures ExtractInputs(payload) == Success(RequestInputs(payload))
    ensures var a := RequestInputs(payload).attributeName; a.None? || a.value != ""
  {
    var p := payload["parameters"].fields;
    assert ParametersOf(payload) == p;
    assert "base_path" in p && "module" in p;
  }

  /** A request that fails the input schema is answered with the schema
      failure, whatever the filesystem and module code: nothing else runs. */
  lemma SchemaFailureComesFirst(
    fs: FileSystem, exec: Executor, fs': FileSystem, exec': Executor,
    explain: Explainer, payload: map<string, Json>)
    requires !ValidInput(JObj(payload))
    ensures var r := MainJson(fs, exec, explain, payload);
      && r.Returned? && ValidError(r.payload)
      && MessageOf(r.payload) == InputFailedMessage
      && r == MainJson(fs', exec', explain, payload)
    ensures MainJson(fs, exec, explain, payload) == Returned(ViolationPayload(InputFailedMessage, explain(JObj(payload))))
  {
  }

  /** When the module cannot be loaded, the answer depends only on that
      failure: a caught exception becomes the resolution failure payload, any
      other escapes. When the file does not even resolve, no module code runs,
      so the answer is the same for every executor. */
  lemma LoadFailureComesSecond(fs: FileSystem, exec: Executor, exec': Executor, explain: Explainer, payload: map<string, Json>)
    requires ValidInput(JObj(payload))
    requires var inputs := RequestInputs(payload);
      LoadModule(fs, exec, inputs.basePath, inputs.moduleName).Failure?
    ensures var inputs := RequestInputs(payload);
      var f := LoadModule(fs, exec, inputs.basePath, inputs.moduleName).error;
      var r := MainJson(fs, exec, explain, payload);
      && (LoadCatches(ClassOf(f)) ==> r.Returned? && ValidError(r.payload) && MessageOf(r.payload) == ResolutionFailedMessage)
      && (!LoadCatches(ClassOf(f)) ==> r == Raised(f))
      && (ResolveModuleFile(fs, inputs.basePath, inputs.moduleName).Failure? ==> r == MainJson(fs, exec', explain, payload))
    ensures var inputs := RequestInputs(payload);
      var f := LoadModule(fs, exec, inputs.basePath, inputs.moduleName).error;
      LoadCatches(ClassOf(f)) ==> Describable(f) && MainJson(fs, exec, explain, payload) == Returned(FailurePayload(
        ResolutionFailedMessage,
        map["error" := JStr(Message(f)), "base_path" := JStr(inputs.basePath), "module" := JStr(inputs.moduleName)]))
  {
    ValidRequestHasInputs(payload);
  }

  /** When the module loads but the requested attribute cannot be produced,
      an AttributeError becomes the attribute failure payload and any other
      exception escapes. */
  lemma AttributeFailureComesThird(fs: FileSystem, exec: Executor, explain: Explainer, payload: map<string, Json>)
    requires ValidInput(JObj(payload))
    requires var inputs := RequestInputs(payload);
      var loaded := LoadModule(fs, exec, inputs.basePath, inputs.moduleName);
      && loaded.Success? && inputs.attributeName.Some?
      && GetAttribute(loaded.value, inputs.attributeName.value).Failure?
    ensures var inputs := RequestInputs(payload);
      var loaded := LoadModule(fs, exec, inputs.basePath, inputs.moduleName);
      var f := GetAttribute(loaded.value, inputs.attributeName.value).error;
      var r := MainJson(fs, exec, explain, payload);
      && (IsSubclass(ClassOf(f), AttributeError) ==> r.Returned? && ValidError(r.payload) && MessageOf(r.payload) == AttributeFailedMessage)
      && (!IsSubclass(ClassOf(f), AttributeError) ==> r == Raised(f))
    ensures var inputs := RequestInputs(payload);
      var loaded := LoadModule(fs, exec, inputs.basePath, inputs.moduleName);
      var f := GetAttribute(loaded.value, inputs.attributeName.value).error;
      IsSubclass(ClassOf(f), AttributeError) ==> Describable(f) && MainJson(fs, exec, explain, payload) == Returned(FailurePayload(
        AttributeFailedMessage,
        map["error" := JStr(Message(f)), "attribute" := JStr(inputs.attributeName.value), "module_file" := JStr(loaded.value.file)]))
  {
    ValidRequestHasInputs(payload);
  }

  /** Every other request succeeds, and its reply satisfies the output
      schema: the output check in `main_json` never fires. The reply names
      the resolved file, says "module" exactly when no attribute was asked
      for, and carries the load message plus, for an attribute, the
      resolution message. */
  lemma SuccessOtherwise(fs: FileSystem, exec: Executor, explain: Explainer, payload: map<string, Json>)
    requires ValidInput(JObj(payload))
    requires var inputs := RequestInputs(payload);
      var loaded := LoadModule(fs, exec, inputs.basePath, inputs.moduleName);
      && loaded.Success?
      && (inputs.attributeName.Some? ==> GetAttribute(loaded.value, inputs.attributeName.value).Success?)
    ensures var inputs := RequestInputs(payload);
      var r := MainJson(fs, exec, explain, payload);
      var loaded := LoadModule(fs, exec, inputs.basePath, inputs.moduleName);
      var located := ResolveModuleFile(fs, inputs.basePath, inputs.moduleName).value;
      var loadedMessage := "Loaded " + inputs.moduleName;
      && r.Returned? && ValidOutput(r.payload)
      && ParsePath(r.payload.fields["module_file"].s) == fs.Anchor(located)
      && r.payload.fields["attribute"] == NameOrNull(inputs.attributeName)
      && (r.payload.fields["object_kind"] == JStr("module") <==> inputs.attributeName.None?)
      && r.payload.fields["messages"] == StringArray(
           if inputs.attributeName.None? then [loadedMessage]
           else [loadedMessage, "Resolved attribute " + inputs.attributeName.value])
      && r.payload.fields["metadata"] == JObj(
           if inputs.attributeName.None? then InitialMetadata(inputs)
           else InitialMetadata(inputs)["attribute_type" := JStr(TypeName(GetAttribute(loaded.value, inputs.attributeName.value).value))])
  {
    ValidRequestHasInputs(payload);
    var inputs := RequestInputs(payload);
    var m := LoadModule(fs, exec, inputs.basePath, inputs.moduleName).value;
    var ctx := Context(m.file, InitialMetadata(inputs), ["Loaded " + inputs.moduleName]);
    var step := ResolveAttributeIfRequested(m, inputs.attributeName, ctx);
    assert step.Continue?;
    var ctx' := step.value.1;
    assert forall i :: 0 <= i < |ctx'.messages| ==> ctx'.messages[i] != "";
    assert ctx'.messages == if inputs.attributeName.None? then ["Loaded " + inputs.moduleName]
      else ["Loaded " + inputs.moduleName, "Resolved attribute " + inputs.attributeName.value];
    assert "module_name" in ctx'.metadata;
    assert |ctx'.metadata| > 0;
  }
}

=== FILE: results.dfy ===
/** Option and Result wrappers used throughout the model. Both are
    failure-compatible, so `:-` propagates a failure unchanged. */
module Results {

  /** A value that may be absent; stands for Python's `X | None`. */
  datatype Option<+T> = None | Some(value: T) {

    predicate IsFailure() {
      None?
    }

    function PropagateFailure<U>(): Option<U>
      requires None?
    {
      None
    }

    function Extract(): T
      requires Some?
    {
      value
    }
  }

  /** Either a computed value or the error that stopped the computation;
      stands for a Python call that returns or raises. */
  datatype Result<+T, +E> = Success(value: T) | Failure(error: E) {

    predicate IsFailure() {
      Failure?
    }

    function PropagateFailure<U>(): Result<U, E>
      requires Failure?
    {
      Failure(error)
    }

    function Extract(): T
      requires Success?
    {
      value
    }
  }
}

=== FILE: runtime.dfy ===
/** The pieces of the Python runtime the sideload helper touches, reduced to
    values: exception classes, loaded modules and their members, and the
    objects a call can hand back. Module code itself is never run here; what
    executing it produces is an input to the model. */
module Runtime {
  import opened Results

  /** The exception classes the helper raises or catches by name, and any
      other class, named and with the base class it derives from (none when
      it derives directly from `Exception`). `ModuleNotFoundError`, for one,
      is `OtherError("ModuleNotFoundError", Some(ImportError))`. */
  datatype ExcClass =
    | ValueError
    | FileNotFoundError
    | ImportError
    | AttributeError
    | OSError
    | OtherError(name: string, base: Option<ExcClass>)

  /** `issubclass(c, target)`: the class itself, FileNotFoundError under
      OSError, or whatever the base class of another class derives from. */
  predicate IsSubclass(c: ExcClass, target: ExcClass) {
    || c == target
    || (c == FileNotFoundError && target == OSError)
    || (c.OtherError? && c.base.Some? && IsSubclass(c.base.value, target))
  }

  /** An exception raised by foreign code: its class and `str(exc)`. */
  datatype Exc = Exc(cls: ExcClass, text: string)

  /** A top-level binding of a loaded module: a plain value (function,
      number, ...) identified by its type name and identity, or a class whose
      zero-argument construction either succeeds or raises `init.value`. */
  datatype Member =
    | Value(typeName: string, ident: nat)
    | Class(className: string, init: Option<Exc>)

  /** A loaded module: the `__file__` it was loaded from and its bindings. */
  datatype Module = Module(file: string, members: map<string, Member>)

  /** What `run` can return: the module itself, a member unchanged, or a
      fresh instance of a member class. */
  datatype Obj =
    | ModuleObj(unit: Module)
    | Plain(member: Member)
    | Instance(className: string)

  /** `type(o).__name__`. */
  function TypeName(o: Obj): string {
    match o
    case ModuleObj(_) => "module"
    case Plain(Value(t, _)) => t
    case Plain(Class(_, _)) => "type"
    case Instance(c) => c
  }
}

=== FILE: scenarios.dfy ===
/** The situations the repository's tests exercise, stated over concrete
    filesystems and requests. */
module Scenarios {
  import opened Results
  import opened Strings
  import opened Paths
  import opened Runtime
  import opened Faults
  import opened Locator
  import opened Sideload
  import opened JsonValues
  import opened JsonContracts
  import opened Pipeline

  /** A modules directory `/m` holding `pkg/__init__.py` and `pkg/inner.py`. */
  function PackageTree(): FileSystem {
    FileSystem(
      {Path(true, ["m", "pkg", "__init__.py"]), Path(true, ["m", "pkg", "inner.py"])},
      {Path(true, ["m"]), Path(true, ["m", "pkg"])},
      Path(true, []))
  }

  lemma ModulesDirParses()
    ensures ParsePath("/m") == Path(true, ["m"])
  {
    SplitAround("", "m", '/');
    assert "" + ['/'] + "m" == "/m";
    SplitWithoutSeparator("m", '/');
  }

  lemma PkgInnerSplits()
    ensures Split("pkg.inner", '.') == ["pkg", "inner"]
  {
    SplitJoin(["pkg", "inner"], '.');
    assert JoinWith(["pkg", "inner"], '.') == "pkg.inner";
  }

  /** The first candidate for a name with two plain dotted parts `a.b` is
      the nested file `a/b.py`. */
  lemma TwoPartNestedCandidate(baseDir: Path, name: string, a: string, b: string)
    requires Split(name, '.') == [a, b] && !EndsWith(name, SourceSuffix)
    requires IsSegment(a) && IsSegment(b) && '.' !in a && '.' !in b
    ensures Candidates(baseDir, name)[0] == Path(baseDir.absolute, baseDir.segs + [a, b + SourceSuffix])
  {
    NestedCandidateSpelled(baseDir, [a, b]);
    assert Candidates(baseDir, name) == NestedCandidate(baseDir, [a, b]) + FallbackCandidates(baseDir, name);
    assert [a, b][..1] + [b + SourceSuffix] == [a, b + SourceSuffix];
  }

  lemma PkgInnerIsPlain(name: string)
    requires name == "pkg.inner"
    ensures !EndsWith(name, SourceSuffix) && '/' !in name
  {
    assert name[6..] == "ner";
  }

  /** "pkg.inner" under a modules directory holding `pkg/__init__.py` and
      `pkg/inner.py` resolves to the nested file `pkg/inner.py`. */
  lemma PkgInnerResolves()
    ensures ResolveModuleFile(PackageTree(), "/m", "pkg.inner") == Success(Path(true, ["m", "pkg", "inner.py"]))
  {
    PkgInnerSplits();
    PkgInnerIsPlain("pkg.inner");
    DottedNameResolvesNested("pkg.inner");
  }

  /** A name whose dotted parts are "pkg" and "inner" resolves to the nested
      file; only "pkg.inner" has those parts (the first ensures). */
  lemma DottedNameResolvesNested(name: string)
    requires Split(name, '.') == ["pkg", "inner"]
    requires !EndsWith(name, SourceSuffix) && '/' !in name
    ensures name == "pkg.inner"
    ensures ResolveModuleFile(PackageTree(), "/m", name) == Success(Path(true, ["m", "pkg", "inner.py"]))
  {
    NameFromParts(name);
    ModulesDirUsable();
    RelativeNameNotAbsolute(PackageTree(), name);
    ModulesDirParses();
    PkgInnerFirstCandidate(ParsePath("/m"), name);
    FirstCandidateChosen(PackageTree(), "/m", name);
  }

  lemma ModulesDirUsable()
    ensures BaseUsable(PackageTree(), "/m")
  {
    ModulesDirParses();
  }

  lemma PkgInnerFirstCandidate(baseDir: Path, name: string)
    requires baseDir == Path(true, ["m"])
    requires Split(name, '.') == ["pkg", "inner"]
    requires !EndsWith(name, SourceSuffix) && '/' !in name
    ensures Candidates(baseDir, name)[0] == Path(true, ["m", "pkg", "inner.py"])
  {
    PkgInnerPartsPlain();
    TwoPartNestedCandidate(baseDir, name, "pkg", "inner");
    InnerSegments();
  }

  lemma PkgInnerPartsPlain()
    ensures IsSegment("pkg") && IsSegment("inner") && '.' !in "pkg" && '.' !in "inner"
  {
  }

  lemma InnerSegments()
    ensures ["m"] + ["pkg", "inner" + SourceSuffix] == ["m", "pkg", "inner.py"]
  {
    assert "inner" + SourceSuffix == "inner.py";
  }

  lemma NameFromParts(name: string)
    requires Split(name, '.') == ["pkg", "inner"]
    ensures name == "pkg.inner"
  {
    JoinSplit(name, '.');
  }

  /** A name without '/' is not an absolute path. */
  lemma RelativeNameNotAbsolute(fs: FileSystem, name: string)
    requires '/' !in name
    ensures !IsAbsoluteFile(fs, name)
  {
    assert |name| > 0 ==> name[0] in name;
  }

  /** "pkg.mod.py" is one literal file name under the base, never the dotted
      path `pkg/mod.py`. */
  lemma SourceNameNotSplit(baseDir: Path)
    ensures Candidates(baseDir, "pkg.mod.py") == [Path(baseDir.absolute, baseDir.segs + ["pkg.mod.py"])]
  {
    assert "pkg.mod.py"[7..] == ".py";
    assert '/' !in "pkg.mod.py";
    SourceFileNameIsLiteral(baseDir, "pkg.mod.py");
  }

  /** A modules directory holding no files resolves nothing: the failure is
      an ImportError naming the module and the base. */
  lemma MissingModuleIsImportError(exec: Executor, name: string)
    ensures var fs := FileSystem({}, {Path(true, ["m"])}, Path(true, []));
      var r := Run(DefaultLoader(fs, exec), "/m", name, None);
      r == Failure(Unresolvable(name, Path(true, ["m"]))) && ClassOf(r.error) == ImportError
  {
    var fs := FileSystem({}, {Path(true, ["m"])}, Path(true, []));
    ModulesDirParses();
    assert BaseUsable(fs, "/m");
    assert !IsAbsoluteFile(fs, name);
    var cs := Candidates(ParsePath("/m"), name);
    assert FirstFile(fs, cs) == |cs|;
  }

  /** A module binding a class `Thing` yields a fresh `Thing` instance; a
      module binding only `ping` has no `Thing`, which is an AttributeError. */
  lemma ClassMemberIsInstantiated(file: string)
    ensures GetAttribute(Module(file, map["Thing" := Class("Thing", None)]), "Thing") == Success(Instance("Thing"))
    ensures ClassOf(GetAttribute(Module(file, map["ping" := Value("function", 0)]), "Thing").error) == AttributeError
  {
  }

  /** A request with empty parameters is answered with the input validation
      failure, whatever the filesystem and module code. */
  lemma EmptyRequestFailsValidation(fs: FileSystem, exec: Executor, explain: Explainer)
    ensures var r := MainJson(fs, exec, explain, map["command" := JStr(Command), "parameters" := JObj(map[])]);
      && r.Returned? && ValidError(r.payload)
      && r.payload.fields["status"] == JStr("failure")
      && MessageOf(r.payload) == InputFailedMessage
  {
    var payload := map["command" := JStr(Command), "parameters" := JObj(map[])];
    EmptyParametersRejected();
    SchemaFailureComesFirst(fs, exec, fs, exec, explain, payload);
  }

  /** Subclasses of the caught classes are caught too: a missing dependency
      imported by module code (ModuleNotFoundError), a file that cannot be
      read (PermissionError) or decoded (UnicodeDecodeError) is a resolution
      failure, while an unrelated RuntimeError escapes. */
  lemma SubclassesAreCaught()
    ensures LoadCatches(OtherError("ModuleNotFoundError", Some(ImportError)))
    ensures LoadCatches(OtherError("PermissionError", Some(OSError)))
    ensures LoadCatches(OtherError("UnicodeDecodeError", Some(OtherError("UnicodeError", Some(ValueError)))))
    ensures !LoadCatches(OtherError("RuntimeError", None))
    ensures IsSubclass(OtherError("ConfigMissing", Some(AttributeError)), AttributeError)
  {
  }
}

=== FILE: sideload.dfy ===
/** Loading a resolved file, extracting a member from the loaded module, and
    the `run` operation that chains the two. */
module Sideload {
  import opened Results
  import opened Paths
  import opened Runtime
  import opened Faults
  import opened Locator

  /** Executing a file's top-level code once in a fresh namespace: the
      bindings it leaves, or the exception it raised. Supplied from outside,
      since module code is foreign. */
  type Executor = Path -> Result<map<string, Member>, Exc>

  /** `_load_module`: locate the file, then run it. The module's `__file__`
      is the located path as text, made absolute against the current
      directory as `spec_from_file_location` does. */
  function LoadModule(fs: FileSystem, exec: Executor, base: string, moduleName: string): (r: Result<Module, Fault>)
    ensures ResolveModuleFile(fs, base, moduleName).Failure? ==>
      r == Failure(ResolveModuleFile(fs, base, moduleName).error)
    ensures ResolveModuleFile(fs, base, moduleName).Success? ==>
      var path := ResolveModuleFile(fs, base, moduleName).value;
      && (r.Success? <==> exec(path).Success?)
      && (r.Failure? ==> r.error == ExecFailed(exec(path).error))
    ensures r.Success? ==>
      var path := ResolveModuleFile(fs, base, moduleName).value;
      && fs.IsFile(path)
      && exec(path) == Success(r.value.members)
      && ParsePath(r.value.file) == fs.Anchor(path)
    ensures r.Failure? ==> Describable(r.error)
  {
    var path :- ResolveModuleFile(fs, base, moduleName);
    ParseRender(fs.Anchor(path));
    match exec(path)
    case Failure(e) => Failure(ExecFailed(e))
    case Success(members) => Success(Module(Render(fs.Anchor(path)), members))
  }

  /** `_get_attribute`: a missing name is an AttributeError naming the
      module's file; a class is constructed with no arguments; any other
      member is handed back unchanged. */
  function GetAttribute(m: Module, name: string): (r: Result<Obj, Fault>)
    ensures name !in m.members <==> r == Failure(NoSuchAttribute(name, m.file))
    ensures r.Success? ==> name in m.members && !(r.value.Plain? && r.value.member.Class?)
    ensures name in m.members && m.members[name].Value? ==> r == Success(Plain(m.members[name]))
    ensures name in m.members && m.members[name].Class? ==>
      match m.members[name].init
      case None => r == Success(Instance(m.members[name].className))
      case Some(e) => r == Failure(ConstructorFailed(name, e))
  {
    if name !in m.members then Failure(NoSuchAttribute(name, m.file))
    else
      match m.members[name]
      case Value(_, _) => Success(Plain(m.members[name]))
      case Class(className, init) =>
        if init.Some? then Failure(ConstructorFailed(name, init.value)) else Success(Instance(className))
  }

  /** The loader strategy `run` delegates to (the `ModuleLoader` protocol). */
  datatype Loader = Loader(
    load: (string, string) -> Result<Module, Fault>,
    getAttribute: (Module, string) -> Result<Obj, Fault>)

  /** `DefaultModuleLoader`. */
  function DefaultLoader(fs: FileSystem, exec: Executor): Loader {
    Loader((base, moduleName) => LoadModule(fs, exec, base, moduleName), GetAttribute)
  }

  /** `PyModuleSideload.run`: the module when no member is named, otherwise
      the member as the loader extracts it. Load failures come first. */
  function Run(loader: Loader, base: string, moduleName: string, obj: Option<string>): (r: Result<Obj, Fault>)
    ensures loader.load(base, moduleName).Failure? ==> r == Failure(loader.load(base, moduleName).error)
    ensures obj.None? && loader.load(base, moduleName).Success? ==>
      r == Success(ModuleObj(loader.load(base, moduleName).value))
    ensures obj.Some? && loader.load(base, moduleName).Success? ==>
      r == loader.getAttribute(loader.load(base, moduleName).value, obj.value)
  {
    var m :- loader.load(base, moduleName);
    if obj.None? then Success(ModuleObj(m)) else loader.getAttribute(m, obj.value)
  }

  /** Without a member name, the default `run` succeeds exactly when the file
      resolves and its code runs, and it returns a module whose `__file__`
      names the resolved file and whose bindings are what the code left. */
  lemma RunWithoutMember(fs: FileSystem, exec: Executor, base: string, moduleName: string)
    ensures var r := Run(DefaultLoader(fs, exec), base, moduleName, None);
      var located := ResolveModuleFile(fs, base, moduleName);
      && (r.Success? <==> located.Success? && exec(located.value).Success?)
      && (r.Success? ==>
            && r.value.ModuleObj?
            && ParsePath(r.value.unit.file) == fs.Anchor(located.value)
            && r.value.unit.members == exec(located.value).value)
  {
  }

  /** With a member name, the default `run` never hands back a module or an
      unconstructed class: a class member comes back as an instance of it,
      any other member unchanged. */
  lemma RunWithMember(fs: FileSystem, exec: Executor, base: string, moduleName: string, name: string)
    ensures var r := Run(DefaultLoader(fs, exec), base, moduleName, Some(name));
      var loaded := LoadModule(fs, exec, base, moduleName);
      && (r.Success? ==> loaded.Success? && name in loaded.value.members)
      && (r.Success? && loaded.value.members[name].Class? ==> r.value == Instance(loaded.value.members[name].className))
      && (r.Success? && loaded.value.members[name].Value? ==> r.value == Plain(loaded.value.members[name]))
      && (loaded.Success? && name !in loaded.value.members ==> r.Failure? && ClassOf(r.error) == AttributeError)
  {
  }

  /** Failures of the base-path checks surface as ValueError and
      FileNotFoundError, before any module code runs. */
  lemma RunRejectsBadBase(fs: FileSystem, exec: Executor, base: string, moduleName: string, obj: Option<string>)
    requires base == "" || !fs.Exists(ParsePath(base))
    ensures var r := Run(DefaultLoader(fs, exec), base, moduleName, obj);
      && r.Failure?
      && ClassOf(r.error) == (if base == "" then ValueError else FileNotFoundError)
      && r == Run(DefaultLoader(fs, (p: Path) => Failure(Exc(OtherError("RuntimeError", None), ""))), base, moduleName, obj)
  {
  }
}

=== FILE: strings.dfy ===
/** Python's `str.split(sep)` and `sep.join(parts)` for a one-character
    separator, and `str.endswith`, with the facts the locator relies on. */
module Strings {

  /** `s.endswith(suffix)`. */
  predicate EndsWith(s: string, suffix: string) {
    |suffix| <= |s| && s[|s| - |suffix|..] == suffix
  }

  /** `s.split(sep)`: the maximal runs between separators, in order. Like
      Python, it never returns an empty list, and splitting "" gives [""]. */
  function Split(s: string, sep: char): (parts: seq<string>)
    ensures |parts| >= 1
    ensures forall i :: 0 <= i < |parts| ==> sep !in parts[i]
    ensures sep in s <==> |parts| > 1
  {
    if |s| == 0 then [""]
    else
      var rest := Split(s[1..], sep);
      assert forall c :: c in s <==> c == s[0] || c in s[1..] by {
        assert s == [s[0]] + s[1..];
      }
      if s[0] == sep then [""] + rest
      else [[s[0]] + rest[0]] + rest[1..]
  }

  /** Every character of a piece occurs in the string that was split. */
  lemma {:induction false} SplitPartsFromSource(s: string, sep: char, i: nat, c: char)
    requires i < |Split(s, sep)| && c in Split(s, sep)[i]
    ensures c in s
  {
    var rest := Split(s[1..], sep);
    assert s == [s[0]] + s[1..];
    if s[0] == sep {
      SplitPartsFromSource(s[1..], sep, i - 1, c);
    } else if i == 0 {
      if c != s[0] {
        assert c in rest[0];
        SplitPartsFromSource(s[1..], sep, 0, c);
      }
    } else {
      SplitPartsFromSource(s[1..], sep, i, c);
    }
  }

  /** `sep.join(parts)`. */
  function JoinWith(parts: seq<string>, sep: char): string {
    if |parts| == 0 then ""
    else if |parts| == 1 then parts[0]
    else parts[0] + [sep] + JoinWith(parts[1..], sep)
  }

  /** Joining the pieces of a split with the same separator gives back the
      original string. */
  lemma {:induction false} JoinSplit(s: string, sep: char)
    ensures JoinWith(Split(s, sep), sep) == s
  {
    if |s| > 0 {
      var rest := Split(s[1..], sep);
      JoinSplit(s[1..], sep);
      if s[0] == sep {
        assert Split(s, sep) == [""] + rest;
        assert ([""] + rest)[1..] == rest;
        assert s == [sep] + s[1..];
      } else {
        var first := [s[0]] + rest[0];
        assert Split(s, sep) == [first] + rest[1..];
        if |rest| == 1 {
          assert JoinWith(rest, sep) == rest[0];
        } else {
          assert ([first] + rest[1..])[1..] == rest[1..];
          assert JoinWith(rest, sep) == rest[0] + [sep] + JoinWith(rest[1..], sep);
        }
        assert s == [s[0]] + s[1..];
      }
    }
  }

  /** A string without the separator splits into itself alone. */
  lemma {:induction false} SplitWithoutSeparator(s: string, sep: char)
    requires sep !in s
    ensures Split(s, sep) == [s]
  {
    if |s| > 0 {
      assert sep !in s[1..] by {
        assert forall c :: c in s[1..] ==> c in s;
      }
      SplitWithoutSeparator(s[1..], sep);
      assert s == [s[0]] + s[1..];
    }
  }

  /** Splitting distributes over a separator placed between two strings. */
  lemma {:induction false} SplitAround(a: string, b: string, sep: char)
    ensures Split(a + [sep] + b, sep) == Split(a, sep) + Split(b, sep)
  {
    var s := a + [sep] + b;
    if |a| == 0 {
      assert s == [sep] + b;
      assert s[1..] == b;
    } else {
      assert s[0] == a[0];
      assert s[1..] == a[1..] + [sep] + b;
      SplitAround(a[1..], b, sep);
      SplitStep(s, sep);
      SplitStep(a, sep);
    }
  }

  /** One unfolding of `Split` on a non-empty string. */
  lemma SplitStep(s: string, sep: char)
    requires |s| > 0
    ensures s[0] == sep ==> Split(s, sep) == [""] + Split(s[1..], sep)
    ensures s[0] != sep ==> Split(s, sep) == [[s[0]] + Split(s[1..], sep)[0]] + Split(s[1..], sep)[1..]
  {
  }

  /** Splitting a join of separator-free pieces gives back the pieces. */
  lemma {:induction false} SplitJoin(parts: seq<string>, sep: char)
    requires |parts| >= 1
    requires forall i :: 0 <= i < |parts| ==> sep !in parts[i]
    ensures Split(JoinWith(parts, sep), sep) == parts
  {
    SplitWithoutSeparator(parts[0], sep);
    if |parts| > 1 {
      SplitJoin(parts[1..], sep);
      SplitAround(parts[0], JoinWith(parts[1..], sep), sep);
      assert parts == [parts[0]] + parts[1..];
    }
  }
}
